=== FILE: README.md ===
# Cinema booking ledger — a Dafny model

This project models the booking core of a small cinema-booking web application.
Users sign up and log in. They browse movies, book tickets for a screening
(a *schedule*), list their bookings, and edit or delete them.

The model has three modules:

- `Wrappers` (wrappers.dfy): `Option` and `Result`.
- `Models` (models.dfy): the relational schema.
  - There is one datatype per table row: `User`, `Movie`, `Screen`, `Seat`, `Schedule`, `Booking`, `BookingDetail`, `Payment` and `AuditLog`.
  - The whole database is a value of type `Tables`, which maps primary keys to rows.
  - The schema's declared constraints are the predicate `WellFormed`. They are: unique email, rating between 0 and 10, a positive seat count per screen, a unique (seat, booking) pair, one payment per booking, and resolving NOT NULL foreign keys.
  - The module also holds the column defaults, the `get_id` text of a user key and its parse, and one lemma per kind of write showing that the constraints survive it.
- `App` (app.dfy): the request handlers as methods of the class `Store`.
  - The class has one `map` field per table, plus a rowid counter for each table the application inserts into.
  - `Valid()` is `WellFormed` of the held tables, plus the condition that each counter is past every key in use.
  - Every method that writes keeps `Valid()`. It states its whole new state as a change to `old(State())`, so anything it does not mention is unchanged.
  - Read-only handlers have no `modifies` clause.

Conventions:

- Money columns (`Numeric(10,2)`) are whole cents. `Rating` (`Numeric(3,2)`) is whole hundredths, from 0 to 1000.
- The logged-in user is passed in as `caller`. Every handler that uses the caller has `requires caller in users`, which stands for the login-required guard. `BookingPage` and `ListMovies` (as `dashboard`) are behind that guard too but never read the caller, so they take none.
- Listings come back in ascending key order. The queries have no ORDER BY, and SQLite scans a table in rowid order. So two listings with no write between them are the same sequence, not just the same set.
- bcrypt's `generate_password_hash` and `check_password_hash` are passed in as function-valued parameters (`hash`, `checkHash`). They are never interpreted.

The model follows the code as written:

- `BookNow` does not check the seat count.
- The total price is the seat count times the movie's `TicketPrice`. `Schedule.Price` is never read.
- An edit stores any status text, including none at all: `request.form.get` can return `None`, and the column is nullable.
- `DeleteBooking` (the `delete_booking` route) removes a booking whoever owns it. Only the confirmation page's delete branch checks ownership.

Two points go beyond the handler code:

- **Deleting a referenced booking fails.** Suppose a `BookingDetails` or `Payments` row refers to a booking. Both backrefs (`booking_details` and `payment`) are one-to-many relationships without delete cascade. So deleting the booking makes the ORM clear the child's `BookingID`. That column is NOT NULL, so the commit fails. The model returns `IntegrityError` and changes nothing. No handler writes those tables, so this path only arises in a database populated some other way.
- **The `TicketPrice is not None` test in `view_bookings` is always true.** The column is NOT NULL. So the listed price falls back to 0 only when `TicketsBooked` is NULL.

## Model

| member | source | states |
|---|---|---|
| `Models.NewSeat` | models.py:84-86 | a new seat keeps the given screen, number and row; its status is the given one, or "Available" when none is given |
| `Models.NewBooking` | models.py:126-128 | a new booking keeps the given user, schedule and ticket count; its status is the given one, or "Pending" when none is given |
| `Models.UniqueEmails` | models.py:15 | holds exactly when no two users share an email |
| `Models.RatingsInRange` | models.py:45-47 | holds exactly when every movie's rating is between 0 and 10, that is 0 to 1000 hundredths |
| `Models.SeatCountsPositive` | models.py:65-67 | holds exactly when every screen has a positive seat count |
| `Models.UniqueSeatPerBooking` | models.py:161-163 | holds exactly when no two booking detail lines name the same seat for the same booking |
| `Models.OnePaymentPerBooking` | models.py:171-173 | holds exactly when no two payments refer to the same booking |
| `Models.ForeignKeysResolve` | models.py:81-191 | holds exactly when every NOT NULL foreign key names an existing row: a seat's screen, a schedule's movie and screen, a booking's user and schedule, a detail line's booking and seat, a payment's booking and an audit entry's user |
| `Models.WellFormed` | models.py:10-194 | holds exactly when all the declared constraints above hold together |
| `Models.InsertUserKeepsWellFormed` | models.py:15 | adding a user under a fresh key with an email nobody has keeps every schema constraint, email uniqueness included |
| `Models.InsertBookingKeepsWellFormed` | models.py:121-124 | adding a booking under a fresh key whose user and schedule exist keeps every schema constraint, the foreign keys included |
| `Models.UpdateBookingKeepsWellFormed` | models.py:126-135 | overwriting a booking's status and ticket count keeps every schema constraint |
| `Models.RemoveBookingKeepsWellFormed` | models.py:146-148 | removing a booking that no detail line and no payment refers to keeps every constraint; the BookingDetails and Payments foreign keys still resolve |
| `Models.GetId` | models.py:28-29 | the session id of a user is a non-empty string of decimal digits |
| `Models.GetIdRoundTrip` | models.py:28-29 | parsing the session id of any user key gives back that key (`int(str(id)) == id`), so `load_user` finds the user that logged in |
| `Models.ParseUserId` | app.py:29 | `int(user_id)` on session text made of plain ASCII digits: gives a key exactly when the text is a non-empty string of ASCII decimal digits; other text is covered under "## Left out" |
| `App.MovieOfSchedule` | app.py:106-107 | the lookup succeeds exactly when the schedule exists and its movie exists, and then gives the schedule's movie |
| `App.OwnedBooking` | app.py:164-169 | the booking is handed out exactly when it exists and belongs to the caller; a missing key is NotFound and another user's booking is Forbidden |
| `App.ListedPrice` | app.py:151-155 | the price listed beside a booking: TicketsBooked times the movie's TicketPrice, or 0 when TicketsBooked is NULL |
| `App.LeastKeyExists` | app.py:35 | helper of the ascending-key scan (a general fact about sets of keys): a non-empty set of keys has a least key, so the scan can always take its next row |
| `App.AscendingListingsAgree` | app.py:35-36 | helper of the ascending-key scan (a general fact about sequences): two listings in ascending key order that mention the same keys, with the same entry for each key, are equal as sequences |
| `App.BookNowIgnoresSchedulePrice` | app.py:114-116 | book_now on two stores that differ only in one schedule's own Price either fails on both or succeeds on both with the same total, so the booking price never depends on Schedule.Price |
| `App.Store.constructor` | models.py:10-194 | a store opened on tables that satisfy every declared constraint, with counters past every key, is Valid and holds exactly those tables |
| `App.Store.LoadUser` | app.py:27-29 | gives a user key exactly when the text parses as a key present in Users; text that does not parse gives no user |
| `App.Store.ListMovies` | app.py:33-36 | index (and the identical dashboard, app.py:88-92) lists every movie exactly once, with its row, and nothing else, in ascending key order |
| `App.ListMoviesTwice` | app.py:33-36 | two index listings with no write between them are the same sequence |
| `App.Store.Signup` | app.py:41-61 | an empty password makes the hasher fail before the email check (EmptyPassword) and changes nothing; a registered email gives DuplicateEmail and changes nothing; otherwise exactly one user is added under a fresh key, with the given name and email, the hashed password and no phone number; every table other than Users is unchanged, and Valid (email uniqueness) is kept |
| `App.Store.Login` | app.py:68-84 | succeeds exactly when some user has this email and the hash check accepts the password against that user's stored hash, and then gives that user; every failure is the same AuthFailure; nothing is written |
| `App.Store.BookingPage` | app.py:105-107 | the booking page opens exactly when the schedule and its movie exist, showing those two rows; otherwise NotFound |
| `App.Store.BookNow` | app.py:105-133 | NotFound and no change unless the schedule and its movie exist; otherwise exactly one booking is added under a fresh key, owned by the caller, for that schedule, with status "Confirmed" and the given seat count; nothing else changes; the computed total is seats times the movie's TicketPrice |
| `App.BookThenList` | app.py:119-153 | when book_now succeeds, a view_bookings that follows lists the new booking at the total book_now computed; book_now succeeds exactly when the schedule and its movie exist; Valid is kept |
| `App.Store.ViewBookings` | app.py:142-158 | lists exactly the caller's bookings, each once, so no other user's booking appears and none of the caller's is left out; each line's price is TicketsBooked times the movie's TicketPrice, or 0 when TicketsBooked is NULL; the lines are in ascending key order; nothing is written |
| `App.ViewBookingsTwice` | app.py:140-158 | two view_bookings listings for the same user with no write between them are the same sequence: the same bookings, at the same prices, in the same order |
| `App.Store.ConfirmationPage` | app.py:163-171 | the page shows the booking and its movie exactly when the booking exists and belongs to the caller; otherwise it gives the guard's NotFound or Forbidden |
| `App.Store.EditBooking` | app.py:173-188 | a missing booking or another user's booking gives NotFound or Forbidden and changes nothing; for the owner, only that booking's status and ticket count change, and every other field, booking and table is unchanged |
| `App.Store.RemoveBooking` | app.py:192-193 | deletes the booking and commits, so only that key leaves Bookings; if a detail line or payment refers to it, the commit fails with IntegrityError and nothing changes |
| `App.Store.DeleteOwnBooking` | app.py:190-196 | a non-owner or a missing key changes nothing; for the owner, only that booking is removed, unless a referring row makes the commit fail |
| `App.Store.DeleteBooking` | app.py:203-209 | NotFound if the key is absent; otherwise the booking is removed whoever owns it, because the caller is not consulted; all other bookings and tables are unchanged, unless a referring row makes the commit fail |

## Left out

- Web layer: routing, the GET/POST dispatch, templates, `flash` and redirects are presentation only. Each POST branch is a method with a result type. The page a GET renders is a read-only method (`BookingPage`, `ConfirmationPage`).
- The `total_price` that the GET branch of `book_now` renders (always 0) is not modelled.
- A booking-confirmation form that carries both an `edit` and a `delete` key takes the edit branch. In the model, the caller chooses which method to call.
- Sessions: `login_user`, `logout_user`, `LoginManager` and `@login_required` are not modelled. `logout` only clears the session and is not modelled. `Login` returns the user's key instead of storing it in a session.
- Password hashing: bcrypt is a foreign library, so hash and check are uninterpreted parameters. Because of that, "login never succeeds with a password other than the one last set" depends on bcrypt and is not stated.
- `Users.set_password` and `Users.check_password` (models.py:31-35) use werkzeug and are never called by the handlers, so they are not modelled.
- Persistence: the SQLAlchemy session, `create_all`, the SQLite URI and app startup are replaced by the in-memory maps.
- Rowid reuse: SQLite hands out one more than the largest key in use, so it can reuse the key of a deleted last row. The counters here never reuse a key. This only affects which fresh key a new row gets.
- Timestamps (`CreatedAt`, `UpdatedAt`, `BookingTime`, `PaymentDate`, `Timestamp`) come from the database clock and are not modelled.
- Form parsing: `int(request.form[...])` is not modelled. Seat and ticket counts arrive as integers.
- Models.ParseUserId, App.Store.LoadUser: Python's `int` also accepts a sign, surrounding blanks, underscores between digits and non-ASCII Unicode decimal digits, and raises `ValueError` on other text. The model parses plain digit strings only and answers "no user" for anything else. `get_id` only ever produces plain digit strings.
- Integer width: SQLite stores `TicketsBooked` as a 64-bit integer. The model's integers are unbounded.
- Foreign keys: SQLite checks FOREIGN KEY clauses only after `PRAGMA foreign_keys=ON`, which the application never issues. So the foreign-key part of `WellFormed` is an assumption about the tables a store is opened on (`App.Store.constructor`), not a guarantee of the database. The handlers' own writes keep it: the preservation lemmas cover inserts and updates, and `RemoveBooking`'s IntegrityError path covers deletes.
- book_now's result: the POST branch computes the total and inserts the booking, then only flashes a message and redirects. It shows neither the total nor the new key, and it charges nothing, since no Payments row is written. `BookNow` returns both in `Booked` only so that the price property can be stated.
- Signup's empty password: Flask-Bcrypt raises `ValueError` on an empty password, and the handler does not catch it. The model returns `EmptyPassword` with nothing changed; the error page the web layer would show is not modelled.
- Column lengths (`String(100)` and the like) and the precision of `Numeric(3,2)` are not enforced by SQLite, so they are not modelled.
- Crashes on a dangling reference are not modelled. `view_bookings` and `booking_confirmation` would crash on a missing schedule or movie. Under `Valid()` every booking's schedule and movie exist, so these crashes cannot happen.
- The `total_price` computed and discarded by the edit branch (app.py:180) is not modelled.
- Row order: SQL promises no order without ORDER BY. The model follows SQLite's scan of a table in rowid order, which is what these unindexed queries get. A query plan that used an index could return another order.
- Concurrency and capacity: the code has no locking and no seat-capacity check, so no such guarantee is stated. `Seats.Status`, `BookingDetails`, `Payments` and `AuditLogs` are never written; they appear only in the store invariant.

=== FILE: app.dfy ===
/**
 * The request handlers of the cinema application as operations on an
 * in-memory store. Each handler that writes performs at most one logical
 * write (one insert, one update or one delete) and commits it; a handler
 * that fails leaves the store as it was.
 *
 * The authenticated caller, which the web layer takes from the session, is
 * an explicit `caller` parameter; `requires caller in users` stands for the
 * login-required guard, which only lets through a session whose id loads an
 * existing user. The password hash and its check are foreign functions and
 * come in as function-valued parameters.
 */
module App {
  import opened Wrappers
  import opened Models

  /** Ways a handler ends without doing its work (a redirect, a 404, an error). */
  datatype Error =
    | NotFound         // get_or_404 found no row
    | DuplicateEmail   // signup with an email already registered
    | AuthFailure      // login with an unknown email or a wrong password
    | Forbidden        // the booking belongs to another user
    | IntegrityError   // the commit violated a NOT NULL constraint and was not applied
    | EmptyPassword    // the password hasher refuses an empty password (an unhandled ValueError)

  /**
   * What book_now computes on a posted form: the new booking's key and the
   * total price of its tickets. The handler itself discards both (it only
   * redirects); they are returned so that properties of them can be stated.
   */
  datatype Booked = Booked(bookingId: Id, totalPrice: Cents)

  /** One line of the caller's booking list, with the price computed for display. */
  datatype Listed = Listed(id: Id, booking: Booking, totalPrice: Cents)

  /** The movie shown by a schedule, when both the schedule and the movie exist. */
  function MovieOfSchedule(t: Tables, scheduleId: Id): (m: Option<Movie>)
    ensures m.Some? <==> scheduleId in t.schedules && t.schedules[scheduleId].movieId in t.movies
    ensures m.Some? ==> m.value == t.movies[t.schedules[scheduleId].movieId]
  {
    if scheduleId in t.schedules && t.schedules[scheduleId].movieId in t.movies
    then Some(t.movies[t.schedules[scheduleId].movieId])
    else None
  }

  /** The price listed beside a booking: tickets times the movie's ticket price, or 0 with no ticket count. */
  function ListedPrice(tickets: Option<int>, ticketPrice: Cents): (p: Cents) {
    if tickets.Some? then tickets.value * ticketPrice else 0
  }

  /** The booking-page guard: the booking must exist and must belong to the caller. */
  function OwnedBooking(bookings: map<Id, Booking>, caller: Id, bookingId: Id): (r: Result<Booking, Error>)
    ensures r.Ok? <==> bookingId in bookings && bookings[bookingId].userId == caller
    ensures r.Ok? ==> r.value == bookings[bookingId]
    ensures r == Err(NotFound) <==> bookingId !in bookings
    ensures r == Err(Forbidden) <==> bookingId in bookings && bookings[bookingId].userId != caller
  {
    if bookingId !in bookings then Err(NotFound)
    else if bookings[bookingId].userId != caller then Err(Forbidden)
    else Ok(bookings[bookingId])
  }

  /** The keys of the bookings a user owns. */
  function OwnedBy(bookings: map<Id, Booking>, caller: Id): (ids: set<Id>) {
    set id | id in bookings && bookings[id].userId == caller
  }

  /** The key of a line of the booking list. */
  function LineKey(e: Listed): Id { e.id }

  /** The key of an entry of the movie list. */
  function EntryKey(e: (Id, Movie)): Id { e.0 }

  /** The keys a listing mentions. */
  ghost function KeysOf<T>(r: seq<T>, key: T -> Id): set<Id> {
    set i | 0 <= i < |r| :: key(r[i])
  }

  /** The keys a booking list mentions. */
  ghost function ListedIds(r: seq<Listed>): set<Id> {
    KeysOf(r, LineKey)
  }

  /** The listing is in strictly ascending key order. */
  ghost predicate Ascending<T>(r: seq<T>, key: T -> Id) {
    forall i, j :: 0 <= i < j < |r| ==> key(r[i]) < key(r[j])
  }

  /** A non-empty set of keys has a least key. */
  lemma {:induction false} LeastKeyExists(keys: set<Id>)
    requires keys != {}
    ensures exists m :: m in keys && forall k :: k in keys ==> m <= k
    decreases |keys|
  {
    var x :| x in keys;
    if keys == {x} {
      assert forall k :: k in keys ==> x <= k;
    } else {
      LeastKeyExists(keys - {x});
      var m :| m in keys - {x} && forall k :: k in keys - {x} ==> m <= k;
      var least := if x < m then x else m;
      forall k | k in keys
        ensures least <= k
      {
        if k != x {
          assert k in keys - {x};
        }
      }
    }
  }

  /** The key a table scan visits next: the least key not yet visited. */
  function LeastKey(keys: set<Id>): (m: Id)
    requires keys != {}
    ensures m in keys && forall k :: k in keys ==> m <= k
  {
    LeastKeyExists(keys);
    var m :| m in keys && forall k :: k in keys ==> m <= k;
    m
  }

  /**
   * Two listings in ascending key order that mention the same keys, with the
   * same entry for each key, are the same listing.
   */
  lemma {:induction false} AscendingListingsAgree<T>(r1: seq<T>, r2: seq<T>, key: T -> Id)
    requires Ascending(r1, key) && Ascending(r2, key)
    requires KeysOf(r1, key) == KeysOf(r2, key)
    requires forall i, j :: 0 <= i < |r1| && 0 <= j < |r2| && key(r1[i]) == key(r2[j]) ==> r1[i] == r2[j]
    ensures r1 == r2
    decreases |r1|
  {
    if |r1| > 0 {
      assert key(r1[0]) in KeysOf(r2, key);
    }
    if |r2| > 0 {
      assert key(r2[0]) in KeysOf(r1, key);
    }
    if |r1| > 0 {
      var k := key(r1[0]);
      assert key(r2[0]) == k;
      assert KeysOf(r1[1..], key) == KeysOf(r1, key) - {k} by {
        assert forall i :: 1 <= i < |r1| ==> r1[1..][i - 1] == r1[i];
      }
      assert KeysOf(r2[1..], key) == KeysOf(r2, key) - {k} by {
        assert forall i :: 1 <= i < |r2| ==> r2[1..][i - 1] == r2[i];
      }
      AscendingListingsAgree(r1[1..], r2[1..], key);
      assert r1 == [r1[0]] + r1[1..];
      assert r2 == [r2[0]] + r2[1..];
    }
  }

  class Store {
    var users: map<Id, User>
    var movies: map<Id, Movie>
    var screens: map<Id, Screen>
    var seats: map<Id, Seat>
    var schedules: map<Id, Schedule>
    var bookings: map<Id, Booking>
    var bookingDetails: map<Id, BookingDetail>
    var payments: map<Id, Payment>
    var auditLogs: map<Id, AuditLog>
    /** The next rowid handed out by the Users table. */
    var nextUserId: Id
    /** The next rowid handed out by the Bookings table. */
    var nextBookingId: Id

    /** The database the store holds. */
    function State(): Tables
      reads this
    {
      Tables(users, movies, screens, seats, schedules, bookings, bookingDetails, payments, auditLogs)
    }

    /** The schema's constraints hold and the rowid counters are past every key in use. */
    ghost predicate Valid()
      reads this
    {
      && WellFormed(State())
      && (forall id :: id in users ==> id < nextUserId)
      && (forall id :: id in bookings ==> id < nextBookingId)
    }

    /** Opens a database whose rows satisfy the schema's constraints. */
    constructor (db: Tables, nextUserId: Id, nextBookingId: Id)
      requires WellFormed(db)
      requires forall id :: id in db.users ==> id < nextUserId
      requires forall id :: id in db.bookings ==> id < nextBookingId
      ensures Valid()
      ensures State() == db
    {
      users, movies, screens, seats, schedules := db.users, db.movies, db.screens, db.seats, db.schedules;
      bookings, bookingDetails, payments, auditLogs := db.bookings, db.bookingDetails, db.payments, db.auditLogs;
      this.nextUserId, this.nextBookingId := nextUserId, nextBookingId;
    }

    /** load_user: the user whose key is the session's id text, if any. */
    method LoadUser(userId: string) returns (r: Option<Id>)
      ensures ParseUserId(userId).None? ==> r.None?
      ensures ParseUserId(userId).Some? ==>
                (r.Some? <==> ParseUserId(userId).value in users)
      ensures r.Some? ==> r == ParseUserId(userId) && r.value in users
    {
      var key := ParseUserId(userId);
      if key.Some? && key.value in users {
        r := key;
      } else {
        r := None;
      }
    }

    /**
     * index and dashboard: every movie, each exactly once, in ascending key
     * order (the order of SQLite's scan of the table).
     */
    method ListMovies() returns (r: seq<(Id, Movie)>)
      ensures forall i :: 0 <= i < |r| ==> r[i].0 in movies && movies[r[i].0] == r[i].1
      ensures forall id :: id in movies ==> exists i :: 0 <= i < |r| && r[i].0 == id
      ensures forall i, j :: 0 <= i < j < |r| ==> r[i].0 < r[j].0
    {
      r := [];
      var rest := movies.Keys;
      while rest != {}
        invariant rest <= movies.Keys
        invariant forall i :: 0 <= i < |r| ==> r[i].0 in movies && movies[r[i].0] == r[i].1 && r[i].0 !in rest
        invariant forall id :: id in movies && id !in rest ==> exists i :: 0 <= i < |r| && r[i].0 == id
        invariant forall i, j :: 0 <= i < j < |r| ==> r[i].0 < r[j].0
        invariant forall i, k :: 0 <= i < |r| && k in rest ==> r[i].0 < k
        decreases rest
      {
        var id := LeastKey(rest);
        var entry := (id, movies[id]);
        assert forall i :: 0 <= i < |r| ==> (r + [entry])[i] == r[i];
        assert (r + [entry])[|r|] == entry;
        r := r + [entry];
        rest := rest - {id};
      }
    }

    /**
     * signup: the password is hashed first, and the hasher refuses an empty
     * one; then a registered email is refused; otherwise one user is added
     * with the hashed password.
     */
    method Signup(userName: string, email: string, password: string, hash: string -> string)
      returns (r: Result<Id, Error>)
      requires Valid()
      modifies this
      ensures Valid()
      ensures password == "" ==> r == Err(EmptyPassword) && State() == old(State())
      ensures password != "" && EmailTaken(old(users), email) ==>
                r == Err(DuplicateEmail) && State() == old(State())
      ensures password != "" && !EmailTaken(old(users), email) ==>
                && r.Ok? && r.value !in old(users)
                && State() == old(State()).(users := old(users)[r.value := User(userName, email, hash(password), None)])
    {
      if password == "" {
        return Err(EmptyPassword);
      }
      var hashed := hash(password);
      if EmailTaken(users, email) {
        return Err(DuplicateEmail);
      }
      var id := nextUserId;
      InsertUserKeepsWellFormed(State(), id, User(userName, email, hashed, None));
      users := users[id := User(userName, email, hashed, None)];
      nextUserId := nextUserId + 1;
      r := Ok(id);
    }

    /** login: succeeds exactly when a user has this email and the hash check accepts the password. */
    method Login(email: string, password: string, checkHash: (string, string) -> bool)
      returns (r: Result<Id, Error>)
      requires Valid()
      ensures r.Ok? <==>
                exists id :: id in users && users[id].email == email && checkHash(users[id].passwordHash, password)
      ensures r.Ok? ==>
                r.value in users && users[r.value].email == email && checkHash(users[r.value].passwordHash, password)
      ensures r.Err? ==> r.error == AuthFailure
    {
      if EmailTaken(users, email) {
        var id :| id in users && users[id].email == email;
        if checkHash(users[id].passwordHash, password) {
          r := Ok(id);
        } else {
          r := Err(AuthFailure);
        }
      } else {
        r := Err(AuthFailure);
      }
    }

    /** book_now without a form: the schedule and its movie, or a 404. */
    method BookingPage(scheduleId: Id) returns (r: Result<(Schedule, Movie), Error>)
      ensures r.Ok? <==> MovieOfSchedule(State(), scheduleId).Some?
      ensures r.Ok? ==> scheduleId in schedules && r.value.0 == schedules[scheduleId]
                        && Some(r.value.1) == MovieOfSchedule(State(), scheduleId)
      ensures r.Err? ==> r.error == NotFound
    {
      if scheduleId !in schedules || schedules[scheduleId].movieId !in movies {
        return Err(NotFound);
      }
      var schedule := schedules[scheduleId];
      r := Ok((schedule, movies[schedule.movieId]));
    }

    /**
     * book_now with the form posted: adds one Confirmed booking of `seats`
     * tickets for the caller and prices it with the movie's ticket price.
     * The seat count is not checked.
     */
    method BookNow(caller: Id, scheduleId: Id, seats: int) returns (r: Result<Booked, Error>)
      requires Valid() && caller in users
      modifies this
      ensures Valid()
      ensures MovieOfSchedule(old(State()), scheduleId).None? ==>
                r == Err(NotFound) && State() == old(State())
      ensures MovieOfSchedule(old(State()), scheduleId).Some? ==>
                && r.Ok? && r.value.bookingId !in old(bookings)
                && r.value.totalPrice == seats * MovieOfSchedule(old(State()), scheduleId).value.ticketPrice
                && State() == old(State()).(bookings := old(bookings)[r.value.bookingId :=
                     Booking(caller, scheduleId, Some("Confirmed"), Some(seats))])
    {
      if scheduleId !in schedules || schedules[scheduleId].movieId !in movies {
        return Err(NotFound);
      }
      var movie := movies[schedules[scheduleId].movieId];
      var totalPrice := seats * movie.ticketPrice;
      var booking := NewBooking(caller, scheduleId, Some("Confirmed"), Some(seats));
      var id := nextBookingId;
      InsertBookingKeepsWellFormed(State(), id, booking);
      bookings := bookings[id := booking];
      nextBookingId := nextBookingId + 1;
      r := Ok(Booked(id, totalPrice));
    }

    /** The line view_bookings shows for one of the caller's bookings. */
    ghost predicate ListsBooking(e: Listed, caller: Id)
      reads this
      requires Valid()
    {
      && e.id in bookings && bookings[e.id] == e.booking && e.booking.userId == caller
      && e.totalPrice == ListedPrice(e.booking.ticketsBooked, movies[schedules[e.booking.scheduleId].movieId].ticketPrice)
    }

    /**
     * view_bookings: exactly the caller's bookings, each once, each with its
     * listed price, in ascending key order (the order of SQLite's scan of the
     * table). Nothing is written.
     */
    method ViewBookings(caller: Id) returns (r: seq<Listed>)
      requires Valid() && caller in users
      ensures forall i :: 0 <= i < |r| ==> ListsBooking(r[i], caller)
      ensures ListedIds(r) == OwnedBy(bookings, caller)
      ensures forall i, j :: 0 <= i < j < |r| ==> r[i].id < r[j].id
    {
      r := [];
      var rest := bookings.Keys;
      while rest != {}
        invariant rest <= bookings.Keys
        invariant forall i :: 0 <= i < |r| ==> ListsBooking(r[i], caller) && r[i].id !in rest
        invariant ListedIds(r) == OwnedBy(bookings, caller) - rest
        invariant forall i, j :: 0 <= i < j < |r| ==> r[i].id < r[j].id
        invariant forall i, k :: 0 <= i < |r| && k in rest ==> r[i].id < k
        decreases rest
      {
        var id := LeastKey(rest);
        var booking := bookings[id];
        if booking.userId == caller {
          var movie := movies[schedules[booking.scheduleId].movieId];
          var entry := Listed(id, booking, ListedPrice(booking.ticketsBooked, movie.ticketPrice));
          assert ListedIds(r + [entry]) == ListedIds(r) + {id} by {
            assert forall i :: 0 <= i < |r| ==> (r + [entry])[i] == r[i];
            assert (r + [entry])[|r|] == entry;
          }
          r := r + [entry];
        }
        rest := rest - {id};
      }
    }

    /** booking_confirmation without an edit or delete: the caller's booking and its movie. */
    method ConfirmationPage(caller: Id, bookingId: Id) returns (r: Result<(Booking, Movie), Error>)
      requires Valid() && caller in users
      ensures r.Ok? <==> OwnedBooking(bookings, caller, bookingId).Ok?
      ensures r.Err? ==> r.error == OwnedBooking(bookings, caller, bookingId).error
      ensures r.Ok? ==> r.value.0 == bookings[bookingId]
                        && Some(r.value.1) == MovieOfSchedule(State(), r.value.0.scheduleId)
    {
      var owned := OwnedBooking(bookings, caller, bookingId);
      if owned.Err? {
        return Err(owned.error);
      }
      var booking := owned.value;
      r := Ok((booking, movies[schedules[booking.scheduleId].movieId]));
    }

    /**
     * booking_confirmation, edit branch: the owner sets the ticket count and
     * the status (any text, or none at all); nothing else changes.
     */
    method EditBooking(caller: Id, bookingId: Id, status: Option<string>, tickets: int)
      returns (r: Result<(), Error>)
      requires Valid() && caller in users
      modifies this
      ensures Valid()
      ensures OwnedBooking(old(bookings), caller, bookingId).Err? ==>
                r == Err(OwnedBooking(old(bookings), caller, bookingId).error) && State() == old(State())
      ensures OwnedBooking(old(bookings), caller, bookingId).Ok? ==>
                && r.Ok?
                && State() == old(State()).(bookings := old(bookings)[bookingId :=
                     old(bookings)[bookingId].(bookingStatus := status, ticketsBooked := Some(tickets))])
    {
      var owned := OwnedBooking(bookings, caller, bookingId);
      if owned.Err? {
        return Err(owned.error);
      }
      UpdateBookingKeepsWellFormed(State(), bookingId, status, Some(tickets));
      bookings := bookings[bookingId := owned.value.(bookingStatus := status, ticketsBooked := Some(tickets))];
      r := Ok(());
    }

    /**
     * Deletes an existing booking and commits. A detail line or payment that
     * refers to it would have its NOT NULL key cleared, so the commit fails
     * and nothing is removed.
     */
    method RemoveBooking(bookingId: Id) returns (r: Result<(), Error>)
      requires Valid() && bookingId in bookings
      modifies this
      ensures Valid()
      ensures Referenced(old(State()), bookingId) ==>
                r == Err(IntegrityError) && State() == old(State())
      ensures !Referenced(old(State()), bookingId) ==>
                r.Ok? && State() == old(State()).(bookings := old(bookings) - {bookingId})
    {
      if Referenced(State(), bookingId) {
        return Err(IntegrityError);
      }
      RemoveBookingKeepsWellFormed(State(), bookingId);
      bookings := bookings - {bookingId};
      r := Ok(());
    }

    /** booking_confirmation, delete branch: only the owner removes the booking. */
    method DeleteOwnBooking(caller: Id, bookingId: Id) returns (r: Result<(), Error>)
      requires Valid() && caller in users
      modifies this
      ensures Valid()
      ensures OwnedBooking(old(bookings), caller, bookingId).Err? ==>
                r == Err(OwnedBooking(old(bookings), caller, bookingId).error) && State() == old(State())
      ensures OwnedBooking(old(bookings), caller, bookingId).Ok? && Referenced(old(State()), bookingId) ==>
                r == Err(IntegrityError) && State() == old(State())
      ensures OwnedBooking(old(bookings), caller, bookingId).Ok? && !Referenced(old(State()), bookingId) ==>
                r.Ok? && State() == old(State()).(bookings := old(bookings) - {bookingId})
    {
      var owned := OwnedBooking(bookings, caller, bookingId);
      if owned.Err? {
        return Err(owned.error);
      }
      r := RemoveBooking(bookingId);
    }

    /**
     * delete_booking: removes the booking whoever owns it; only a missing
     * key (404) or a referring row stops it. The caller is not consulted.
     */
    method DeleteBooking(caller: Id, bookingId: Id) returns (r: Result<(), Error>)
      requires Valid() && caller in users
      modifies this
      ensures Valid()
      ensures bookingId !in old(bookings) ==> r == Err(NotFound) && State() == old(State())
      ensures bookingId in old(bookings) && Referenced(old(State()), bookingId) ==>
                r == Err(IntegrityError) && State() == old(State())
      ensures bookingId in old(bookings) && !Referenced(old(State()), bookingId) ==>
                r.Ok? && State() == old(State()).(bookings := old(bookings) - {bookingId})
    {
      if bookingId !in bookings {
        return Err(NotFound);
      }
      r := RemoveBooking(bookingId);
    }
  }

  /**
   * book_now followed by view_bookings: the new booking appears in the
   * caller's list, at the total book_now computed for it.
   */
  method BookThenList(store: Store, caller: Id, scheduleId: Id, seats: int)
    returns (r: Result<Booked, Error>, listing: seq<Listed>)
    requires store.Valid() && caller in store.users
    modifies store
    ensures store.Valid()
    ensures r.Ok? ==>
              (exists i :: 0 <= i < |listing| && listing[i].id == r.value.bookingId
                           && listing[i].totalPrice == r.value.totalPrice)
    ensures r.Ok? <==> MovieOfSchedule(old(store.State()), scheduleId).Some?
  {
    r := store.BookNow(caller, scheduleId, seats);
    listing := store.ViewBookings(caller);
    if r.Ok? {
      var id := r.value.bookingId;
      assert id in OwnedBy(store.bookings, caller);
      assert id in ListedIds(listing);
    }
  }

  /**
   * index twice with no write between: the two pages list the same movies in
   * the same order.
   */
  method ListMoviesTwice(store: Store) returns (r1: seq<(Id, Movie)>, r2: seq<(Id, Movie)>)
    ensures r1 == r2
  {
    r1 := store.ListMovies();
    r2 := store.ListMovies();
    assert KeysOf(r1, EntryKey) == store.movies.Keys == KeysOf(r2, EntryKey) by {
      forall id | id in store.movies
        ensures id in KeysOf(r1, EntryKey) && id in KeysOf(r2, EntryKey)
      {
        var i :| 0 <= i < |r1| && r1[i].0 == id;
        var j :| 0 <= j < |r2| && r2[j].0 == id;
        assert EntryKey(r1[i]) == id && EntryKey(r2[j]) == id;
      }
    }
    AscendingListingsAgree(r1, r2, EntryKey);
  }

  /**
   * view_bookings twice with no write between: the two pages list the same
   * bookings, at the same prices, in the same order.
   */
  method ViewBookingsTwice(store: Store, caller: Id) returns (r1: seq<Listed>, r2: seq<Listed>)
    requires store.Valid() && caller in store.users
    ensures r1 == r2
  {
    r1 := store.ViewBookings(caller);
    r2 := store.ViewBookings(caller);
    AscendingListingsAgree(r1, r2, LineKey);
  }

  /**
   * book_now on two stores that differ only in one schedule's own Price
   * column: both succeed or both fail, and both compute the same total.
   */
  method BookNowIgnoresSchedulePrice(s1: Store, s2: Store, caller: Id, scheduleId: Id, seats: int, price: Cents)
    returns (r1: Result<Booked, Error>, r2: Result<Booked, Error>)
    requires s1 != s2
    requires s1.Valid() && caller in s1.users && s2.Valid() && caller in s2.users
    requires scheduleId in s1.schedules
    requires s2.State() == s1.State().(schedules := s1.schedules[scheduleId := s1.schedules[scheduleId].(price := price)])
    modifies s1, s2
    ensures r1.Ok? <==> r2.Ok?
    ensures r1.Ok? ==> r1.value.totalPrice == r2.value.totalPrice
  {
    r1 := s1.BookNow(caller, scheduleId, seats);
    r2 := s2.BookNow(caller, scheduleId, seats);
  }
}

=== FILE: models.dfy ===
/**
 * The relational schema of the cinema: one datatype per table row, the tables
 * themselves as maps from primary key to row, and the column constraints the
 * schema declares as a well-formedness predicate over all tables.
 *
 * A row's primary key is its key in the table's map, not a field of the row.
 * Nullable columns are `Option`s; NOT NULL columns are plain values.
 * Timestamps (CreatedAt, UpdatedAt, BookingTime, PaymentDate, Timestamp) are
 * not modelled.
 */
module Models {
  import opened Wrappers

  /** A surrogate primary key (an SQLite rowid). */
  type Id = nat

  /** A Numeric(10,2) amount, as a whole number of cents. */
  type Cents = int

  /** A Numeric(3,2) rating, as a whole number of hundredths. */
  type Hundredths = int

  datatype User = User(
    userName: string,
    email: string,
    passwordHash: string,
    phoneNumber: Option<string>)

  datatype Movie = Movie(
    title: string,
    description: Option<string>,
    durationMinutes: int,
    rating: Hundredths,
    releaseDate: Option<int>,      // days since an epoch
    ticketPrice: Cents,
    posterUrl: Option<string>)

  datatype Screen = Screen(name: string, totalSeats: int)

  datatype Seat = Seat(
    screenId: Id,
    seatNumber: string,
    rowNumber: Option<string>,
    status: Option<string>)        // 'Available', 'Locked' or 'Booked' by convention only

  datatype Schedule = Schedule(
    movieId: Id,
    screenId: Id,
    showTime: int,                 // seconds since an epoch
    price: Cents)

  datatype Booking = Booking(
    userId: Id,
    scheduleId: Id,
    bookingStatus: Option<string>, // 'Pending', 'Confirmed' or 'Cancelled' by convention only
    ticketsBooked: Option<int>)

  datatype BookingDetail = BookingDetail(bookingId: Id, seatId: Id, price: Cents)

  datatype Payment = Payment(bookingId: Id, paymentMethod: string, paymentStatus: string)

  datatype AuditLog = AuditLog(userId: Id, action: string)

  /** The whole database: every table, keyed by primary key. */
  datatype Tables = Tables(
    users: map<Id, User>,
    movies: map<Id, Movie>,
    screens: map<Id, Screen>,
    seats: map<Id, Seat>,
    schedules: map<Id, Schedule>,
    bookings: map<Id, Booking>,
    bookingDetails: map<Id, BookingDetail>,
    payments: map<Id, Payment>,
    auditLogs: map<Id, AuditLog>)

  // ---------------------------------------------------------------------------
  // Column defaults
  // ---------------------------------------------------------------------------

  const DefaultSeatStatus: string := "Available"
  const DefaultBookingStatus: string := "Pending"

  /** A new Seats row; the status column falls back to its default when none is given. */
  function NewSeat(screenId: Id, seatNumber: string, rowNumber: Option<string>, status: Option<string>): (s: Seat)
    ensures s.screenId == screenId && s.seatNumber == seatNumber && s.rowNumber == rowNumber
    ensures status.None? ==> s.status == Some("Available")
    ensures status.Some? ==> s.status == status
  {
    Seat(screenId, seatNumber, rowNumber, Some(if status.Some? then status.value else DefaultSeatStatus))
  }

  /** A new Bookings row; the status column falls back to its default when none is given. */
  function NewBooking(userId: Id, scheduleId: Id, status: Option<string>, tickets: Option<int>): (b: Booking)
    ensures b.userId == userId && b.scheduleId == scheduleId && b.ticketsBooked == tickets
    ensures status.None? ==> b.bookingStatus == Some("Pending")
    ensures status.Some? ==> b.bookingStatus == status
  {
    Booking(userId, scheduleId, Some(if status.Some? then status.value else DefaultBookingStatus), tickets)
  }

  // ---------------------------------------------------------------------------
  // Column constraints
  // ---------------------------------------------------------------------------

  /** Users.Email is UNIQUE. */
  ghost predicate UniqueEmails(users: map<Id, User>) {
    forall a, b :: a in users && b in users && users[a].email == users[b].email ==> a == b
  }

  /** Some user already has this email. */
  predicate EmailTaken(users: map<Id, User>, email: string) {
    exists id :: id in users && users[id].email == email
  }

  /** CHECK (Rating BETWEEN 0 AND 10), in hundredths. */
  ghost predicate RatingsInRange(movies: map<Id, Movie>) {
    forall id :: id in movies ==> 0 <= movies[id].rating <= 1000
  }

  /** CHECK (TotalSeats > 0). */
  ghost predicate SeatCountsPositive(screens: map<Id, Screen>) {
    forall id :: id in screens ==> screens[id].totalSeats > 0
  }

  /** UNIQUE (SeatID, BookingID) on BookingDetails. */
  ghost predicate UniqueSeatPerBooking(details: map<Id, BookingDetail>) {
    forall a, b ::
      a in details && b in details &&
      details[a].seatId == details[b].seatId && details[a].bookingId == details[b].bookingId
      ==> a == b
  }

  /** Payments.BookingID is UNIQUE: at most one payment per booking. */
  ghost predicate OnePaymentPerBooking(payments: map<Id, Payment>) {
    forall a, b :: a in payments && b in payments && payments[a].bookingId == payments[b].bookingId ==> a == b
  }

  /** Every NOT NULL foreign key names an existing row. */
  ghost predicate ForeignKeysResolve(t: Tables) {
    && (forall id :: id in t.seats ==> t.seats[id].screenId in t.screens)
    && (forall id :: id in t.schedules ==> t.schedules[id].movieId in t.movies && t.schedules[id].screenId in t.screens)
    && (forall id :: id in t.bookings ==> t.bookings[id].userId in t.users && t.bookings[id].scheduleId in t.schedules)
    && (forall id :: id in t.bookingDetails ==>
          t.bookingDetails[id].bookingId in t.bookings && t.bookingDetails[id].seatId in t.seats)
    && (forall id :: id in t.payments ==> t.payments[id].bookingId in t.bookings)
    && (forall id :: id in t.auditLogs ==> t.auditLogs[id].userId in t.users)
  }

  /** All the constraints the schema declares. */
  ghost predicate WellFormed(t: Tables) {
    && UniqueEmails(t.users)
    && RatingsInRange(t.movies)
    && SeatCountsPositive(t.screens)
    && UniqueSeatPerBooking(t.bookingDetails)
    && OnePaymentPerBooking(t.payments)
    && ForeignKeysResolve(t)
  }

  /** A booking detail line or a payment refers to this booking. */
  predicate Referenced(t: Tables, bookingId: Id) {
    || (exists id :: id in t.bookingDetails && t.bookingDetails[id].bookingId == bookingId)
    || (exists id :: id in t.payments && t.payments[id].bookingId == bookingId)
  }

  // ---------------------------------------------------------------------------
  // The constraints survive the writes the application performs
  // ---------------------------------------------------------------------------

  /** Inserting a user whose email is not taken keeps every constraint. */
  lemma InsertUserKeepsWellFormed(t: Tables, id: Id, u: User)
    requires WellFormed(t)
    requires id !in t.users && !EmailTaken(t.users, u.email)
    ensures WellFormed(t.(users := t.users[id := u]))
  {
  }

  /** Inserting a booking whose user and schedule exist keeps every constraint. */
  lemma InsertBookingKeepsWellFormed(t: Tables, id: Id, b: Booking)
    requires WellFormed(t)
    requires id !in t.bookings && b.userId in t.users && b.scheduleId in t.schedules
    ensures WellFormed(t.(bookings := t.bookings[id := b]))
  {
  }

  /** Changing a booking's ticket count and status keeps every constraint. */
  lemma UpdateBookingKeepsWellFormed(t: Tables, id: Id, status: Option<string>, tickets: Option<int>)
    requires WellFormed(t)
    requires id in t.bookings
    ensures WellFormed(t.(bookings := t.bookings[id := t.bookings[id].(bookingStatus := status, ticketsBooked := tickets)]))
  {
  }

  /** Removing a booking that no detail line and no payment refers to keeps every constraint. */
  lemma RemoveBookingKeepsWellFormed(t: Tables, id: Id)
    requires WellFormed(t)
    requires !Referenced(t, id)
    ensures WellFormed(t.(bookings := t.bookings - {id}))
  {
  }

  // ---------------------------------------------------------------------------
  // The user id as Flask-Login stores it in the session
  // ---------------------------------------------------------------------------

  function DigitChar(d: nat): (c: char)
    requires d < 10
    ensures '0' <= c <= '9'
  {
    ('0' as int + d) as char
  }

  function DigitValue(c: char): (d: Option<nat>)
    ensures d.Some? <==> '0' <= c <= '9'
    ensures d.Some? ==> d.value < 10 && DigitChar(d.value) == c
  {
    if '0' <= c <= '9' then Some(c as int - '0' as int) else None
  }

  /** `get_id`: the decimal text of the user's primary key. */
  function GetId(id: Id): (s: string)
    ensures |s| >= 1
    ensures forall i :: 0 <= i < |s| ==> '0' <= s[i] <= '9'
  {
    if id < 10 then [DigitChar(id)] else GetId(id / 10) + [DigitChar(id % 10)]
  }

  /** `int(user_id)` on a string of decimal digits; anything else is not a key. */
  function ParseUserId(s: string): (r: Option<Id>)
    ensures r.Some? <==> |s| >= 1 && forall i :: 0 <= i < |s| ==> '0' <= s[i] <= '9'
    decreases |s|
  {
    if |s| == 0 then None
    else
      var d := DigitValue(s[|s| - 1]);
      if d.None? then None
      else if |s| == 1 then d
      else match ParseUserId(s[..|s| - 1])
        case None => None
        case Some(p) => Some(10 * p + d.value)
  }

  /** The key written into the session reads back as the same key. */
  lemma {:induction false} GetIdRoundTrip(id: Id)
    ensures ParseUserId(GetId(id)) == Some(id)
  {
    if id >= 10 {
      GetIdRoundTrip(id / 10);
      var s := GetId(id);
      var prefix := GetId(id / 10);
      assert s == prefix + [DigitChar(id % 10)];
      assert s[..|s| - 1] == prefix;
      assert DigitValue(s[|s| - 1]) == Some(id % 10);
    }
  }
}

=== FILE: wrappers.dfy ===
/** Optional values (nullable columns, lookups that may miss) and results with an error. */
module Wrappers {

  datatype Option<+T> = None | Some(value: T)

  datatype Result<+T, +E> = Ok(value: T) | Err(error: E)
}
